=== FILE: README.md ===
# watchify-ts: the watch / invalidate / debounce engine, in Dafny

This project models the core of `watchify()` from watchify-ts, the plugin that
keeps a browserify bundle up to date while its sources are edited. The core is a
single-threaded, event-driven state machine. Its state (`Types.State`) holds:

- the ignore memo (`ignoredFiles`) and a log of every question put to the ignore matcher;
- the watcher registry:
  - `fwatchers` maps each logical file to the ids of its watchers;
  - `fwatcherFiles` maps each logical file to the physical paths watched for it;
  - a table of every watcher ever created, with its owner, its target and an open/closed flag;
- the dirty set (`changingDeps`);
- the file cache and the package cache, either of which may be absent;
- the flag saying a debounce timer is pending;
- the flag saying a bundle is in flight (`updating`).

Each handler is one pure function from a state to a state. `Engine.Step`
dispatches one event to its handler. `Engine.Run` handles a sequence of events.
The events are:

- file, package and transform-dependency discovery;
- a watcher's change or error;
- the timer firing;
- a bundle's start and end;
- a dependency row reaching the collection hook;
- `close`.

Modules:

- `Types`: paths, watchers, cache entries, rows, the state, outputs, the host's pure collaborators (`Env`).
- `Options`: normalisation of `delay`, `ignoreWatch` and `poll`.
- `Registry`: the ignore memo, `watchFile`, `close` and the registry invariant.
- `Debounce`: cache eviction, `invalidate`, the timer callback `notify` and the build gate.
- `Collect`: the row handler of the cache collection hook.
- `Engine`: event dispatch, runs, the engine invariant and the properties of runs.

The engine invariant (`Engine.Inv`) has these parts:

- the two registry maps have the same keys;
- each logical file has exactly one watcher per registered physical path, and each of those watchers reports to that file;
- every open watcher is registered;
- no watcher was ever created for an ignored logical file;
- every memoised decision is the matcher's answer, and the matcher was asked about each path at most once;
- a timer is pending exactly when the dirty set is not empty.

Every event preserves it (`Engine.StepPreservesInv`), so every reachable state satisfies it (`Engine.ReachableInv`).

In these places the model follows the code as written, which a reader might not expect:

- The ignore decision is keyed on, and computed for, the logical `file`, not the physical `dep`. A transform dependency of a watched file is watched even when the matcher rejects the dependency's path (`Registry.IgnoreKeyedOnFile`).
- `close` closes the registered watchers and nothing else. It does not empty the registry maps, the dirty set or the timer, and there is no closed flag. Watchers that existed at `close` are all closed, so their changes and errors have no effect (`Engine.CloseSilencesWatchers`). Because nothing marks the engine as closed, a file discovered later whose path was never registered for it gets a fresh open watcher, and a change on that watcher marks the file dirty and arms the timer (`Engine.DiscoveredAfterCloseWatched`). A (file, path) pair registered before `close` keeps its registration, so rediscovering it right after `close` arms nothing (`Engine.WatchedBeforeCloseStaysShut`). The pair is watched again only if the file is later invalidated through a watcher armed after `close`, because that drops the file's registry entries. A timer armed before `close` still fires and still delivers an `update` (`Engine.PendingTimerSurvivesClose`).
- The collection hook keys an exposed row by looking the row's id up in the builder's expose table, which maps the id to the file's resolved path. A row whose id is missing from the table is keyed by the property name `undefined`. Expose ids are modelled as strings, since they are property names, although `_expose` is declared with numeric keys (index.ts:9-11).
- The gate is a single flag. The `end` or `error` of any bundle clears it, even when another bundle started later.

## Model

| member | source | states |
|---|---|---|
| Options.Normalize | index.ts:47-55 | `delay` is kept only when it is a number, else 100. A falsy `ignoreWatch` becomes the node_modules glob. A boolean `poll` sets `usePolling` to it. A numeric `poll` sets `usePolling` to true and `interval` to it. Any other `poll` sets neither. Watchers are always persistent. |
| Options.IntervalImpliesPolling | index.ts:50-55 | An interval is set exactly when `poll` is a number, and then polling is on. |
| Options.NormalizeStable | index.ts:47-55 | Feeding the derived settings back as options yields the same settings. |
| Registry.Memoise | index.ts:141-143 | The matcher is asked about `file` only when the memo has no decision for it, and the question is logged. A memoised decision is returned unchanged and nothing else changes. |
| Registry.WatchFile | index.ts:139-165 | The matcher is asked about `file` only when the memo lacks it. An ignored file leaves the registry unchanged. A (file, dep) pair already registered creates no watcher. Otherwise exactly one open watcher on `dep`, reporting to `file`, is appended. `dep` defaults to `file`. For a watched file, its watcher list gains exactly the new id and its path set gains exactly `dep`. Other files' entries, the dirty set, the caches and the flags are unchanged. |
| Registry.MemoisePreservesInv | index.ts:141-143 | The memo stays sound, and the matcher log holds each memoised path exactly once. |
| Registry.WatchFilePreservesInv | index.ts:147-164 | `watchFile` keeps the registry invariant: equal key sets, as many watchers as registered paths for every file, targets equal to the registered paths, open watchers registered, ignored files unwatched. |
| Registry.NoDuplicateTargets | index.ts:150-164 | Under the invariant no two watchers of one logical file observe the same physical path, so no (file, dep) pair is watched twice. |
| Registry.TargetsDistinct | index.ts:153-164 | A list of watchers that observes as many distinct paths as it has entries has pairwise distinct targets. |
| Registry.EmptyDepMeansFile | index.ts:139-140 | An empty dependency path behaves exactly like no dependency: the file's own path is what gets watched. |
| Registry.WatchFileIdempotent | index.ts:153-155 | Repeating `watchFile(file, dep)` changes nothing. |
| Registry.IgnoreKeyedOnFile | index.ts:141-146 | The ignore decision is taken and memoised for the logical file only. A dependency the matcher would reject is still watched for an accepted file. |
| Registry.Close | index.ts:202-208 | Every watcher listed in the registry is closed. No other watcher changes. Apart from open flags the state is unchanged: the registry maps, the memo, the dirty set, the caches and the timer stay as they were. |
| Registry.CloseIdempotent | index.ts:202-208 | Closing twice leaves the same state as closing once. |
| Registry.CloseShutsEveryWatcher | index.ts:202-208 | Under the invariant no watcher is open after `close`. |
| Registry.ClosePreservesInv | index.ts:202-208 | `close` keeps the registry invariant. |
| Debounce.Evict | index.ts:79-84 | Eviction removes `id` from a configured cache. Every other key keeps its presence and value. An absent cache stays absent. |
| Debounce.Invalidate | index.ts:78-99 | `invalidate(id)` evicts `id` from both caches. It adds `id` to the dirty set and leaves a timer pending. With no bundle in flight it closes exactly `id`'s watchers and removes `id` from both maps. During a bundle the registry is unchanged. |
| Debounce.InvalidateLeavesOthers | index.ts:87-94 | Under the invariant, watchers of other logical files are never touched by `invalidate`. |
| Debounce.InvalidatePreservesInv | index.ts:78-99 | `invalidate` keeps the registry invariant and leaves a pending timer with a non-empty dirty set. |
| Debounce.Notify | index.ts:101-109 | During a bundle the timer is re-armed and nothing is emitted or cleared. Otherwise one `update` carries the whole dirty set, the dirty set is emptied and no timer is left pending. |
| Debounce.BundleStart | index.ts:193-194 | A `bundle` event sets the gate and changes nothing else. |
| Debounce.BundleEnd | index.ts:195-199 | The bundle's `end` or `error` clears the gate and changes nothing else. |
| Debounce.NotifyPreservesTimerInv | index.ts:101-109 | A firing timer keeps "pending exactly when dirty". Anything it emits is an `update` with a non-empty payload. |
| Debounce.InvalidateAllCoalesces | index.ts:85-98 | A burst of invalidations adds exactly the burst's ids to the dirty set, each once, and leaves one timer pending. |
| Debounce.CoalescedDelivery | index.ts:96-109 | After a burst with no bundle in flight, the timer delivers one `update` with the union of the burst and the earlier dirty ids. It then leaves the engine idle. |
| Debounce.InvalidateTwiceOnce | index.ts:78-99 | Invalidating the same id twice leaves the same state as invalidating it once: the dirty set, the caches, the registry, the watchers and the timer. |
| Debounce.DeferredUntilBuildEnds | index.ts:101-109 | A firing during a bundle emits nothing, keeps the dirty set and re-arms. After the bundle ends, the next firing delivers the whole dirty set. |
| Collect.CacheKey | index.ts:67 | A row that is not exposed is keyed by its own file. An exposed row is keyed by the path the expose table gives for its id, or by `undefined` when the id is missing. |
| Collect.CollectRow | index.ts:64-76 | With a cache, the row's source and dependency map are stored under the row's key: for an exposed row, the path the expose table gives for its id; otherwise its own file. No other key changes. The row is passed on unchanged. Without a cache nothing is written. |
| Collect.ExposedRowKeyedByExposeTable | index.ts:67-71 | An exposed row is stored under the path the expose table gives for its id. When that path differs from `row.file`, the entry for `row.file` is left as it was. |
| Collect.CollectRowIdempotent | index.ts:68-71 | Collecting the same row twice leaves the cache as collecting it once. |
| Engine.OnPackage | index.ts:176-182 | The package's `package.json` id is watched like a discovered file, and the package is recorded under it when a package cache exists. |
| Engine.Step | index.ts:157-200 | Only a timer firing emits `update`. A watcher's error is forwarded exactly when the watcher is open, and it changes no state. Only the collection hook passes rows, and it passes the row it got. Every other event emits nothing. `bundle` closes the gate, the bundle's end opens it, and no other event moves it. |
| Engine.PackageRecorded | index.ts:176-182 | A discovered package's `package.json` is watched exactly as a discovered file with that path would be, whether or not a package cache is configured. With a package cache the package is recorded under that path; without one there is still no package cache. Nothing is emitted. |
| Engine.RowCachedByStep | index.ts:64-76 | A row reaching the collection hook is passed on. With a file cache, the row's source and dependency map are stored under its key and every other entry is kept. Without a cache the state is unchanged. |
| Engine.InitInv | index.ts:57-62 | The freshly attached engine is idle, with an empty registry, and satisfies the invariant. |
| Engine.StepPreservesInv | index.ts:139-208 | Every event handler keeps the engine invariant. |
| Engine.RunPreservesInv | index.ts:139-208 | Every sequence of events keeps the engine invariant. |
| Engine.ReachableInv | index.ts:57-208 | Every state reachable from attachment satisfies the invariant. |
| Engine.DirtyOnlyShrinksAtDelivery | index.ts:85-109 | Every event keeps every dirty id, except a timer firing that delivers exactly the dirty set and then empties it. |
| Engine.UpdatesNonEmpty | index.ts:101-107 | Under the invariant every delivered `update` names at least one file. |
| Engine.MemoStable | index.ts:141-143 | No event recomputes or drops a memoised ignore decision. The log of matcher questions only grows, and every question an event adds is about a path the memo did not hold. |
| Engine.ChangeInvalidatesOwner | index.ts:160-162 | A change on an open watcher adds its logical owner, not its path, to the dirty set. It evicts the owner from both caches and leaves a timer pending. During a bundle the registry is unchanged. Otherwise a registered owner's watchers are closed and the owner leaves both registry maps. |
| Engine.ChangeTearsDownOwner | index.ts:84-94 | Under the invariant, a change with no bundle in flight closes the reporting watcher and every other watcher of its owner, and removes the owner from both registry maps. |
| Engine.TransformDepInvalidatesModule | index.ts:187-191 | A new transform dependency of a module the matcher accepts arms one watcher on the dependency. A change on that watcher marks the module dirty. |
| Engine.TwoTargetsOneEntry | index.ts:85-94 | Changes on two watchers of one logical file put that file in the dirty set once. |
| Engine.CloseSilencesWatchers | index.ts:202-208 | After `close`, watcher changes and errors emit nothing and change nothing. The registry maps, the dirty set and the timer survive `close`. |
| Engine.DiscoveredAfterCloseWatched | index.ts:147-165 | After `close`, a file discovered whose path was never registered for it gets a fresh open watcher. A change on it marks the file dirty and arms the timer. |
| Engine.WatchedBeforeCloseStaysShut | index.ts:202-208 | After `close`, rediscovering a file whose path was registered before creates no watcher, and every watcher stays closed. |
| Engine.PendingTimerSurvivesClose | index.ts:96-109 | A timer armed before `close` still fires and delivers the dirty set. |
| Engine.NoTimerNoDelivery | index.ts:101-109 | A run without a timer firing delivers no `update` and loses no dirty id. |
| Engine.NoDeliveryDuringBuild | index.ts:101-109 | While the gate is closed, a run of events that does not end the bundle delivers no `update`, keeps the gate closed and loses no dirty id. |
| Engine.BundleGatesDelivery | index.ts:193-200 | From any state, after a `bundle` event and until that bundle's end, nothing is delivered and no dirty id is lost. |
| Engine.BuildDefersDelivery | index.ts:193-200 | During a bundle a firing delivers nothing and keeps the dirty set and timer. After the bundle's end the next firing delivers every dirty id. |

## Left out

- `reset` (index.ts:111-137) is not modelled. It only produces byte counts, elapsed time and a log line for each build, using the clock and float formatting.
- The watch primitive (`b._watcher`, chokidar `watch`, `setMaxListeners`; index.ts:157-159, 210-212) is not modelled. A watcher is a table entry with an open/closed flag. A closed watcher reports nothing. A watcher error is forwarded as an `Error` output and changes no state.
- Glob matching (picomatch) is left uninterpreted. The matcher is the pure function `Env.ignore`, and `Options.Normalize` keeps the patterns only as data.
- Options.Normalize: accepts every `ignoreWatch` value. Compiling the matcher at index.ts:48 fails when the plugin is attached if a pattern is the empty string or not a string. That follows picomatch's documented behaviour; picomatch is not part of this model, so the failure is not represented.
- `path.join(pkg.__dirname, "package.json")` is the abstract pure function `Env.packageFile`.
- Real time is left out. The `delay` value is normalised but not consumed: arming a timer sets the pending flag, and `TimerFire` is the timer's callback. A `TimerFire` with no pending timer does nothing. The quiet-period bounds ("delivered within `delay`") are therefore not stated.
- The `update` payload is a live iterator over an insertion-ordered map in the source (index.ts:106-107), though the event is declared as carrying `string[]` (index.ts:15). It is modelled as a snapshot set, so three things are not modelled:
  - the delivery order within the payload;
  - that the map is cleared right after the synchronous emit, so a listener that reads the iterator after the emit returns sees no ids;
  - that a second listener sees no ids once the first has used the iterator up.
- Stream plumbing is not modelled: through2, EventEmitter dispatch, and re-installing the collection hook on every `reset` (index.ts:167-170). Each handler is one atomic step, and the hook is present exactly when a cache is configured.
- Options.Normalize: option numbers are integers; NaN, infinities and fractions are not represented.
- The file cache and the package cache are objects shared with the host (index.ts:44-45), which other code may write directly. The model owns them as values, and no event models a write from outside the engine.
- A watcher's error is re-emitted as the host's `error` event (index.ts:159). The host throws when nothing listens for `error`; the model always forwards the error as an `Error` output and has no such failure.
- Collect.CollectRow: the dependency map is a value, so the shallow copy `Object.assign({}, row.deps)` is the value itself.

=== FILE: collect.dfy ===
/** The cache collection hook: the pass-through stage that refreshes the
    builder's file cache from every row of the dependency walk. */
module Collect {
  import opened Types

  /** The property name a missing expose-table entry turns into when used as a key. */
  const MissingEntry: Path := "undefined"

  /** The id a row is cached under: for an exposed row, the path the expose
      table gives for the row's id; otherwise the row's own file. An exposed
      row whose id is not in the table is keyed by the name a missing property
      lookup produces. */
  function CacheKey(expose: map<string, Path>, row: Row): (k: Path)
    ensures !row.expose ==> k == row.file
    ensures row.expose && row.id in expose ==> k == expose[row.id]
    ensures row.expose && row.id !in expose ==> k == MissingEntry
  {
    if !row.expose then row.file
    else if row.id in expose then expose[row.id]
    else MissingEntry
  }

  /** The row handler of the collection hook, with `expose` the builder's
      expose table (expose id to path) at the time the row passes. When a
      cache is configured it stores the row's source and a copy of its
      dependency map under the row's key, and changes no other key; the row
      itself is passed on unchanged. Without a cache the hook is not
      installed and the row passes untouched. */
  function CollectRow(s: State, expose: map<string, Path>, row: Row): (t: Transition)
    ensures t.out == [Pass(row)]
    ensures t.state == s.(cache := t.state.cache)
    ensures t.state.cache.Some? <==> s.cache.Some?
    ensures t.state.cache.Some? ==>
      var key := CacheKey(expose, row);
      && key in t.state.cache.value
      && t.state.cache.value[key] == CacheEntry(row.source, row.deps)
      && (forall k :: k != key ==> (k in t.state.cache.value <==> k in s.cache.value))
      && (forall k :: k != key && k in s.cache.value ==> t.state.cache.value[k] == s.cache.value[k])
  {
    match s.cache
    case None => Transition(s, [Pass(row)])
    case Some(c) =>
      Transition(s.(cache := Some(c[CacheKey(expose, row) := CacheEntry(row.source, row.deps)])), [Pass(row)])
  }

  /** An exposed row is cached under the path the expose table gives for its
      id, not under `row.file`: when the two differ, the entry for `row.file`,
      if any, is left exactly as it was. */
  lemma ExposedRowKeyedByExposeTable(s: State, expose: map<string, Path>, row: Row)
    requires s.cache.Some? && row.expose && row.id in expose && expose[row.id] != row.file
    ensures var c := CollectRow(s, expose, row).state.cache.value;
      && expose[row.id] in c && c[expose[row.id]].source == row.source
      && (row.file in c <==> row.file in s.cache.value)
      && (row.file in c ==> c[row.file] == s.cache.value[row.file])
  {
  }

  /** Collecting the same row twice leaves the cache as collecting it once. */
  lemma CollectRowIdempotent(s: State, expose: map<string, Path>, row: Row)
    ensures CollectRow(CollectRow(s, expose, row).state, expose, row).state == CollectRow(s, expose, row).state
  {
    if s.cache.Some? {
      var k, v := CacheKey(expose, row), CacheEntry(row.source, row.deps);
      assert s.cache.value[k := v][k := v] == s.cache.value[k := v];
    }
  }
}

=== FILE: debounce.dfy ===
/** Cache eviction, the dirty set, the debounce timer and the build-phase
    gate: what happens when a watcher reports a change, when the quiet-period
    timer fires, and when a bundle starts or ends. */
module Debounce {
  import opened Types
  import opened Registry

  /** Deletes key `id` from a cache that may not be configured at all. */
  function Evict<V>(c: Option<map<Path, V>>, id: Path): (r: Option<map<Path, V>>)
    ensures r.Some? <==> c.Some?
    ensures r.Some? ==> id !in r.value
    ensures r.Some? ==> forall k :: k != id ==> (k in r.value <==> k in c.value)
    ensures r.Some? ==> forall k :: k != id && k in c.value ==> r.value[k] == c.value[k]
  {
    match c
    case None => None
    case Some(m) => Some(m - {id})
  }

  /** The `invalidate(id)` handler. Evicts `id` from both caches, marks it
      dirty, and re-arms the one debounce timer. When no bundle is in flight
      the watchers of `id` are closed and `id` leaves both registry maps; while
      a bundle is in flight the registry is left alone. */
  function Invalidate(s: State, id: Path): (r: State)
    ensures r.cache == Evict(s.cache, id) && r.packageCache == Evict(s.packageCache, id)
    ensures r.changing == s.changing + {id}
    ensures r.pending
    ensures r.updating == s.updating && r.ignored == s.ignored && r.matcherCalls == s.matcherCalls
    // while a bundle is in flight (or `id` has no watchers) the registry is untouched
    ensures s.updating || id !in s.fwatchers ==>
      r.fwatchers == s.fwatchers && r.fwatcherFiles == s.fwatcherFiles && r.table == s.table
    // otherwise `id`'s watchers are closed and `id` leaves both maps, and nothing else
    ensures !s.updating && id in s.fwatchers ==>
      && r.fwatchers == s.fwatchers - {id}
      && r.fwatcherFiles == s.fwatcherFiles - {id}
      && |r.table| == |s.table|
      && (forall w :: 0 <= w < |s.table| ==> r.table[w].owner == s.table[w].owner && r.table[w].target == s.table[w].target)
      && (forall w :: 0 <= w < |s.table| ==> (r.table[w].open <==> s.table[w].open && w !in s.fwatchers[id]))
  {
    var evicted := s.(cache := Evict(s.cache, id), packageCache := Evict(s.packageCache, id));
    var marked := evicted.(changing := evicted.changing + {id});
    var dropped :=
      if !marked.updating && id in marked.fwatchers then
        marked.(table := CloseWatchers(marked.table, set w | w in marked.fwatchers[id]),
                fwatchers := marked.fwatchers - {id},
                fwatcherFiles := marked.fwatcherFiles - {id})
      else marked;
    dropped.(pending := true)
  }

  /** The timer callback `notify`. While a bundle is in flight the timer is
      simply re-armed; otherwise the dirty set is delivered as one `update`
      and emptied, and no timer is left pending. */
  function Notify(s: State): (t: Transition)
    ensures s.updating ==> t.out == [] && t.state == s.(pending := true)
    ensures !s.updating ==> t.out == [Update(s.changing)] && t.state == s.(pending := false, changing := {})
  {
    if s.updating then Transition(s.(pending := true), [])
    else Transition(s.(pending := false, changing := {}), [Update(s.changing)])
  }

  /** A `bundle` event closes the gate. */
  function BundleStart(s: State): (r: State)
    ensures r.updating
    ensures r.changing == s.changing && r.pending == s.pending
    ensures r == s.(updating := r.updating)
  {
    s.(updating := true)
  }

  /** The bundle's `end` or `error` event opens the gate. */
  function BundleEnd(s: State): (r: State)
    ensures !r.updating
    ensures r.changing == s.changing && r.pending == s.pending
    ensures r == s.(updating := r.updating)
  {
    s.(updating := false)
  }

  /** The debounce part of the engine invariant: a timer is pending exactly
      when there is something to deliver. */
  predicate TimerInv(s: State)
  {
    s.pending <==> s.changing != {}
  }

  /** Invalidating a file touches no watcher of any other logical file. */
  lemma InvalidateLeavesOthers(env: Env, s: State, id: Path)
    requires RegistryInv(env, s)
    ensures var r := Invalidate(s, id);
      && |r.table| == |s.table|
      && forall w :: 0 <= w < |s.table| && s.table[w].owner != id ==> r.table[w] == s.table[w]
  {
    var r := Invalidate(s, id);
    if !s.updating && id in s.fwatchers {
      assert Backs(s, id);
      forall w | 0 <= w < |s.table| && s.table[w].owner != id
        ensures r.table[w] == s.table[w]
      {
        assert w !in s.fwatchers[id];
      }
    }
  }

  /** Dropping a file's registry entry keeps every other file consistently backed. */
  lemma InvalidateWellFormed(env: Env, s: State, id: Path)
    requires RegistryInv(env, s)
    ensures WellFormed(Invalidate(s, id))
  {
    var r := Invalidate(s, id);
    if !s.updating && id in s.fwatchers {
      forall f | f in r.fwatchers ensures Backs(r, f) {
        var ws := s.fwatchers[f];
        assert Backs(s, f);
        TargetsFrame(s.table, r.table, ws);
        assert Owned(r.table, ws, f) by {
          forall i | 0 <= i < |ws| ensures r.table[ws[i]].owner == f {
            assert r.table[ws[i]].owner == s.table[ws[i]].owner;
          }
        }
      }
    }
  }

  /** A watcher left open by `invalidate` is still registered. */
  lemma InvalidateOpenRegistered(env: Env, s: State, id: Path)
    requires RegistryInv(env, s)
    ensures OpenRegistered(Invalidate(s, id))
  {
    var r := Invalidate(s, id);
    if !s.updating && id in s.fwatchers {
      forall w | 0 <= w < |r.table| && r.table[w].open
        ensures r.table[w].owner in r.fwatchers && w in r.fwatchers[r.table[w].owner]
      {
        var o := s.table[w].owner;
        assert s.table[w].open && w !in s.fwatchers[id];
        assert o in s.fwatchers && w in s.fwatchers[o];
      }
    }
  }

  /** `invalidate` keeps both the registry and the timer invariants. */
  lemma InvalidatePreservesInv(env: Env, s: State, id: Path)
    requires RegistryInv(env, s)
    ensures RegistryInv(env, Invalidate(s, id)) && TimerInv(Invalidate(s, id))
  {
    var r := Invalidate(s, id);
    InvalidateWellFormed(env, s, id);
    InvalidateOpenRegistered(env, s, id);
    assert IgnoredUnwatched(r) by {
      forall w | 0 <= w < |r.table|
        ensures r.table[w].owner in r.ignored && !r.ignored[r.table[w].owner]
      {
        assert r.table[w].owner == s.table[w].owner;
      }
    }
  }

  /** The timer callback keeps the timer invariant. */
  lemma NotifyPreservesTimerInv(s: State)
    requires TimerInv(s)
    requires s.pending
    ensures TimerInv(Notify(s).state)
    ensures forall o :: o in Notify(s).out ==> o.Update? && o.ids != {}
  {
  }

  /** Invalidates the files of `ids` one after another. */
  function InvalidateAll(s: State, ids: seq<Path>): (r: State)
    decreases |ids|
  {
    if ids == [] then s else InvalidateAll(Invalidate(s, ids[0]), ids[1..])
  }

  /** The elements of a sequence of ids. */
  function Elems(ids: seq<Path>): (e: set<Path>)
    ensures forall i :: 0 <= i < |ids| ==> ids[i] in e
    ensures forall x :: x in e ==> x in ids
  {
    set x | x in ids
  }

  /** Coalescing: a burst of invalidations, however many and in whatever
      order, leaves one pending timer and a dirty set that gained exactly the
      burst's ids, each once, and never removes a dirty id. */
  lemma {:induction false} InvalidateAllCoalesces(s: State, ids: seq<Path>)
    ensures InvalidateAll(s, ids).changing == s.changing + Elems(ids)
    ensures InvalidateAll(s, ids).updating == s.updating
    ensures |ids| > 0 ==> InvalidateAll(s, ids).pending
    decreases |ids|
  {
    if ids != [] {
      var s1 := Invalidate(s, ids[0]);
      InvalidateAllCoalesces(s1, ids[1..]);
      assert Elems(ids) == {ids[0]} + Elems(ids[1..]) by {
        forall x | x in Elems(ids) ensures x in {ids[0]} + Elems(ids[1..]) {
          var i :| 0 <= i < |ids| && ids[i] == x;
          if i > 0 { assert ids[1..][i - 1] == x; }
        }
      }
    }
  }

  /** The timer firing after a burst of invalidations with no bundle in flight
      delivers exactly one `update` carrying the union of the burst's ids and
      whatever was already dirty, and leaves the engine idle. */
  lemma CoalescedDelivery(s: State, ids: seq<Path>)
    requires !s.updating && |ids| > 0
    ensures var t := Notify(InvalidateAll(s, ids));
      t.out == [Update(s.changing + Elems(ids))] && t.state.changing == {} && !t.state.pending
  {
    InvalidateAllCoalesces(s, ids);
  }

  /** Set semantics: invalidating the same logical file a second time leaves
      the state exactly as the first invalidation left it. */
  lemma InvalidateTwiceOnce(s: State, id: Path)
    ensures Invalidate(Invalidate(s, id), id) == Invalidate(s, id)
  {
    if s.cache.Some? {
      assert s.cache.value - {id} - {id} == s.cache.value - {id};
    }
    if s.packageCache.Some? {
      assert s.packageCache.value - {id} - {id} == s.packageCache.value - {id};
    }
  }

  /** Build deferral: a timer firing during a bundle delivers nothing and
      loses nothing; once the bundle has ended the next firing delivers every
      id that was dirty. */
  lemma DeferredUntilBuildEnds(s: State)
    requires s.updating && s.pending
    ensures Notify(s).out == [] && Notify(s).state.changing == s.changing && Notify(s).state.pending
    ensures Notify(BundleEnd(Notify(s).state)).out == [Update(s.changing)]
  {
  }
}

=== FILE: engine.dfy ===
/** The orchestrator: the builder's and the watchers' events wired to the
    handlers, one atomic step per event, and the properties every run keeps. */
module Engine {
  import opened Types
  import opened Registry
  import opened Debounce
  import opened Collect

  /** Everything that can happen to the engine. */
  datatype Event =
    | FileDiscovered(file: Path)                       // the builder's `file` event
    | PackageDiscovered(pkg: Package)                  // the builder's `package` event
    | TransformDep(mfile: Path, dep: Path)             // a transform's `file` event for module `mfile`
    | Change(watcher: nat)                             // a watcher's `change` event
    | WatchError(watcher: nat, err: string)            // a watcher's `error` event
    | TimerFire                                        // the debounce timer's callback runs
    | BundleStart                                      // the builder's `bundle` event
    | BundleEnd                                        // that bundle's `end` or `error` event
    | DepsRow(expose: map<string, Path>, row: Row)     // a row reaches the collection hook
    | Close                                            // the host calls `close`

  /** Is watcher `w` one that exists and has not been closed? A closed
      watcher reports nothing. */
  predicate IsOpen(s: State, w: nat)
  {
    w < |s.table| && s.table[w].open
  }

  /** The `package` handler: watch the package's `package.json` under its own
      id and, when a package cache is configured, record the package there. */
  function OnPackage(env: Env, s: State, pkg: Package): (r: State)
    ensures var file := env.packageFile(pkg.dirname);
      && r.packageCache.Some? == s.packageCache.Some?
      && (r.packageCache.Some? ==> r.packageCache.value == s.packageCache.value[file := pkg])
      && r == WatchFile(env, s, file, None).(packageCache := r.packageCache)
  {
    var file := env.packageFile(pkg.dirname);
    var s1 := WatchFile(env, s, file, None);
    match s1.packageCache
    case None => s1
    case Some(pc) => s1.(packageCache := Some(pc[file := pkg]))
  }

  /** One event, handled atomically. Only a timer firing can deliver an
      `update`, only an open watcher's error is forwarded, and only the
      collection hook passes rows on. Only the bundle's start and end move
      the gate. */
  function Step(env: Env, s: State, e: Event): (t: Transition)
    ensures forall o :: o in t.out && o.Update? ==> e.TimerFire?
    ensures forall o :: o in t.out && o.Error? ==> e.WatchError?
    ensures forall o :: o in t.out && o.Pass? ==> e.DepsRow? && o.row == e.row
    ensures !e.TimerFire? && !e.DepsRow? && !e.WatchError? ==> t.out == []
    // a watcher error is forwarded when the watcher is open, and changes nothing
    ensures e.WatchError? ==> t.state == s && t.out == (if IsOpen(s, e.watcher) then [Error(e.err)] else [])
    // the gate closes at `bundle`, opens at its end, and no other event moves it
    ensures e.BundleStart? ==> t.state.updating
    ensures e.BundleEnd? ==> !t.state.updating
    ensures !e.BundleStart? && !e.BundleEnd? ==> t.state.updating == s.updating
  {
    match e
    case FileDiscovered(file) => Transition(WatchFile(env, s, file, None), [])
    case PackageDiscovered(pkg) => Transition(OnPackage(env, s, pkg), [])
    case TransformDep(mfile, dep) => Transition(WatchFile(env, s, mfile, Some(dep)), [])
    case Change(w) =>
      if IsOpen(s, w) then Transition(Invalidate(s, s.table[w].owner), []) else Transition(s, [])
    case WatchError(w, err) =>
      if IsOpen(s, w) then Transition(s, [Error(err)]) else Transition(s, [])
    case TimerFire => if s.pending then Notify(s) else Transition(s, [])
    case BundleStart => Transition(Debounce.BundleStart(s), [])
    case BundleEnd => Transition(Debounce.BundleEnd(s), [])
    case DepsRow(expose, row) => CollectRow(s, expose, row)
    case Close => Transition(Registry.Close(s), [])
  }

  /** Handles the events of `es` in order, collecting what they emit. */
  function Run(env: Env, s: State, es: seq<Event>): (t: Transition)
    decreases |es|
  {
    if es == [] then Transition(s, [])
    else
      var t1 := Step(env, s, es[0]);
      var t2 := Run(env, t1.state, es[1..]);
      Transition(t2.state, t1.out + t2.out)
  }

  /** The engine invariant: the registry and memo invariants, and a timer
      pending exactly when the dirty set is not empty. */
  predicate Inv(env: Env, s: State)
  {
    RegistryInv(env, s) && TimerInv(s)
  }

  /** A freshly attached engine satisfies the invariant. */
  lemma InitInv(env: Env, cache: Option<map<Path, CacheEntry>>, packageCache: Option<map<Path, Package>>)
    ensures Inv(env, Init(cache, packageCache))
    ensures var s := Init(cache, packageCache); s.changing == {} && !s.pending && !s.updating && s.table == []
  {
  }

  /** The registry invariant reads neither the caches nor the timer, the dirty
      set or the gate. */
  lemma RegistryInvFrame(env: Env, s: State, r: State)
    requires RegistryInv(env, s)
    requires r == s.(cache := r.cache, packageCache := r.packageCache, changing := r.changing, pending := r.pending, updating := r.updating)
    ensures RegistryInv(env, r)
  {
    assert WellFormed(r) by {
      forall f | f in r.fwatchers ensures Backs(r, f) { assert Backs(s, f); }
    }
  }

  /** Every event keeps the engine invariant. */
  lemma StepPreservesInv(env: Env, s: State, e: Event)
    requires Inv(env, s)
    ensures Inv(env, Step(env, s, e).state)
  {
    var r := Step(env, s, e).state;
    match e
    case FileDiscovered(file) =>
      WatchFilePreservesInv(env, s, file, None);
    case PackageDiscovered(pkg) =>
      var s1 := WatchFile(env, s, env.packageFile(pkg.dirname), None);
      WatchFilePreservesInv(env, s, env.packageFile(pkg.dirname), None);
      RegistryInvFrame(env, s1, r);
    case TransformDep(mfile, dep) =>
      WatchFilePreservesInv(env, s, mfile, Some(dep));
    case Change(w) =>
      if IsOpen(s, w) {
        InvalidatePreservesInv(env, s, s.table[w].owner);
      }
    case WatchError(_, _) =>
    case TimerFire =>
      if s.pending {
        RegistryInvFrame(env, s, r);
      }
    case BundleStart =>
      RegistryInvFrame(env, s, r);
    case BundleEnd =>
      RegistryInvFrame(env, s, r);
    case DepsRow(expose, row) =>
      RegistryInvFrame(env, s, r);
    case Close =>
      ClosePreservesInv(env, s);
  }

  /** Every run of events from a state satisfying the invariant keeps it. */
  lemma {:induction false} RunPreservesInv(env: Env, s: State, es: seq<Event>)
    requires Inv(env, s)
    ensures Inv(env, Run(env, s, es).state)
    decreases |es|
  {
    if es != [] {
      StepPreservesInv(env, s, es[0]);
      RunPreservesInv(env, Step(env, s, es[0]).state, es[1..]);
    }
  }

  /** Every reachable state satisfies the invariant. */
  lemma ReachableInv(env: Env, cache: Option<map<Path, CacheEntry>>, packageCache: Option<map<Path, Package>>, es: seq<Event>)
    ensures Inv(env, Run(env, Init(cache, packageCache), es).state)
  {
    InitInv(env, cache, packageCache);
    RunPreservesInv(env, Init(cache, packageCache), es);
  }

  /** The dirty set only shrinks at delivery: every event either keeps every
      dirty id, or is a timer firing that delivers exactly the dirty set and
      then empties it. An edit is therefore never lost. */
  lemma DirtyOnlyShrinksAtDelivery(env: Env, s: State, e: Event)
    ensures var t := Step(env, s, e);
      || s.changing <= t.state.changing
      || (e.TimerFire? && t.out == [Update(s.changing)] && t.state.changing == {})
  {
  }

  /** Under the invariant every delivered `update` names at least one file. */
  lemma UpdatesNonEmpty(env: Env, s: State, e: Event)
    requires Inv(env, s)
    ensures forall o :: o in Step(env, s, e).out && o.Update? ==> o.ids != {}
  {
  }

  /** Memoised ignore decisions are never recomputed or dropped by any event:
      every decision survives with its value, the record of matcher questions
      only grows, and any question an event adds is about a path the memo did
      not yet hold. */
  lemma MemoStable(env: Env, s: State, e: Event)
    ensures MemoExtends(s, Step(env, s, e).state)
  {
    var r := Step(env, s, e).state;
    match e
    case FileDiscovered(file) =>
      WatchFileExtendsMemo(env, s, file, None);
    case PackageDiscovered(pkg) =>
      var w := WatchFile(env, s, env.packageFile(pkg.dirname), None);
      WatchFileExtendsMemo(env, s, env.packageFile(pkg.dirname), None);
      assert r.ignored == w.ignored && r.matcherCalls == w.matcherCalls;
    case TransformDep(mfile, dep) =>
      WatchFileExtendsMemo(env, s, mfile, Some(dep));
    case _ =>
      assert r.ignored == s.ignored && r.matcherCalls == s.matcherCalls;
  }

  /** A change on an open watcher invalidates the logical file it was armed
      for, never its physical path: the dirty set gains exactly the owner, the
      owner is evicted from the caches, and a timer is pending. */
  lemma ChangeInvalidatesOwner(env: Env, s: State, w: nat)
    requires IsOpen(s, w)
    ensures var r := Step(env, s, Change(w)).state;
      && r.changing == s.changing + {s.table[w].owner}
      && r.pending
      && r.cache == Evict(s.cache, s.table[w].owner)
      && r.packageCache == Evict(s.packageCache, s.table[w].owner)
    // during a bundle the registry is left alone
    ensures var r := Step(env, s, Change(w)).state;
      s.updating ==> r.fwatchers == s.fwatchers && r.fwatcherFiles == s.fwatcherFiles && r.table == s.table
    // otherwise the owner's watchers are closed and the owner leaves both maps
    ensures var r := Step(env, s, Change(w)).state; var o := s.table[w].owner;
      !s.updating && o in s.fwatchers ==>
        && o !in r.fwatchers && o !in r.fwatcherFiles
        && (forall v :: v in s.fwatchers[o] && v < |r.table| ==> !r.table[v].open)
  {
  }

  /** Under the invariant a change with no bundle in flight always tears
      its owner down: the owner is registered, so the watcher that reported
      and every other watcher of the owner are closed, and the owner leaves
      both registry maps. */
  lemma ChangeTearsDownOwner(env: Env, s: State, w: nat)
    requires Inv(env, s)
    requires IsOpen(s, w) && !s.updating
    ensures var r := Step(env, s, Change(w)).state; var o := s.table[w].owner;
      && o !in r.fwatchers && o !in r.fwatcherFiles
      && |r.table| == |s.table|
      && !r.table[w].open
      && (forall v :: 0 <= v < |s.table| && s.table[v].owner == o ==> !r.table[v].open)
  {
    var o := s.table[w].owner;
    var r := Step(env, s, Change(w)).state;
    assert o in s.fwatchers && w in s.fwatchers[o];
    forall v | 0 <= v < |s.table| && s.table[v].owner == o
      ensures !r.table[v].open
    {
      if s.table[v].open {
        assert v in s.fwatchers[o];
      }
    }
  }

  /** A row reaching the collection hook refreshes the file cache: with a
      cache, the row's source and dependency map are stored under its key and
      every other key keeps its presence and value; without one nothing but
      the pass-through happens. */
  lemma RowCachedByStep(env: Env, s: State, expose: map<string, Path>, row: Row)
    ensures var t := Step(env, s, DepsRow(expose, row));
      && t.out == [Pass(row)]
      && t.state == s.(cache := t.state.cache)
      && (s.cache.None? ==> t.state == s)
      && (s.cache.Some? ==>
            var k := CacheKey(expose, row);
            && t.state.cache.Some?
            && t.state.cache.value == s.cache.value[k := CacheEntry(row.source, row.deps)])
  {
    if s.cache.Some? {
      var t := Step(env, s, DepsRow(expose, row));
      var k := CacheKey(expose, row);
      assert t.state.cache.value == s.cache.value[k := CacheEntry(row.source, row.deps)];
    }
  }

  /** A transform dependency `dep` of module `mfile`: the first time it is
      reported a watcher on `dep` is armed, and a change on that watcher marks
      `mfile` dirty, not `dep`. */
  lemma TransformDepInvalidatesModule(env: Env, s: State, mfile: Path, dep: Path)
    requires Inv(env, s)
    requires !env.ignore(mfile)
    requires dep != "" && !HasPair(s, mfile, dep)
    ensures var s1 := Step(env, s, TransformDep(mfile, dep)).state;
      && |s1.table| == |s.table| + 1
      && s1.table[|s.table|] == Watcher(mfile, dep, true)
      && Step(env, s1, Change(|s.table|)).state.changing == s.changing + {mfile}
  {
  }

  /** Multi-target coalescing: two watchers of the same logical file changing
      one after the other put that file in the dirty set once, whether or not
      the first change already closed the second watcher. */
  lemma TwoTargetsOneEntry(env: Env, s: State, w1: nat, w2: nat)
    requires IsOpen(s, w1) && IsOpen(s, w2) && s.table[w1].owner == s.table[w2].owner
    ensures var s1 := Step(env, s, Change(w1)).state;
      Step(env, s1, Change(w2)).state.changing == s.changing + {s.table[w1].owner}
  {
    var f := s.table[w1].owner;
    var s1 := Step(env, s, Change(w1)).state;
    if IsOpen(s1, w2) {
      assert s1.table[w2].owner == f;
    }
  }

  /** Shutdown: after `close` no watcher is open, so any later change or
      error report is ignored: no output, no eviction, no state change.
      The registry maps, the dirty set and the timer survive the close. */
  lemma CloseSilencesWatchers(env: Env, s: State, w: nat, err: string)
    requires Inv(env, s)
    ensures var c := Step(env, s, Close).state;
      && c.fwatchers == s.fwatchers && c.fwatcherFiles == s.fwatcherFiles
      && c.changing == s.changing && c.pending == s.pending
      && Step(env, c, Change(w)) == Transition(c, [])
      && Step(env, c, WatchError(w, err)) == Transition(c, [])
  {
    CloseShutsEveryWatcher(env, s);
  }

  /** `close` leaves no closed flag behind: a file discovered afterwards whose
      own path was never registered for it gets a fresh open watcher, and a
      change on that watcher marks the file dirty and arms the timer. */
  lemma DiscoveredAfterCloseWatched(env: Env, s: State, file: Path)
    requires Inv(env, s)
    requires !env.ignore(file) && !HasPair(s, file, file)
    ensures var c := Step(env, s, Close).state;
      var d := Step(env, c, FileDiscovered(file)).state;
      && |d.table| == |s.table| + 1
      && d.table[|s.table|] == Watcher(file, file, true)
      && Step(env, d, Change(|s.table|)).state.changing == s.changing + {file}
      && Step(env, d, Change(|s.table|)).state.pending
  {
    var c := Step(env, s, Close).state;
    assert !HasPair(c, file, file);
  }

  /** The other side of the missing flag: a file whose own path was
      registered before `close` keeps that registration, so discovering it
      again creates no watcher and every watcher stays closed. */
  lemma WatchedBeforeCloseStaysShut(env: Env, s: State, file: Path)
    requires Inv(env, s)
    requires HasPair(s, file, file)
    ensures var c := Step(env, s, Close).state;
      var d := Step(env, c, FileDiscovered(file)).state;
      && d.table == c.table
      && forall w :: 0 <= w < |d.table| ==> !d.table[w].open
  {
    CloseShutsEveryWatcher(env, s);
    RediscoveryAfterClose(env, s, file);
  }

  /** Discovering, after `close`, a file whose own path was registered before
      leaves the closed watcher table as it was. */
  lemma RediscoveryAfterClose(env: Env, s: State, file: Path)
    requires HasPair(s, file, file)
    ensures Step(env, s, Close).state == Registry.Close(s)
    ensures Step(env, Registry.Close(s), FileDiscovered(file)).state.table == Registry.Close(s).table
  {
    assert DefaultDep(file, None) == file;
  }

  /** `close` does not cancel the debounce timer: a timer armed before the
      close still fires afterwards and delivers the dirty set once the gate
      is open. */
  lemma PendingTimerSurvivesClose(env: Env, s: State)
    requires s.pending && !s.updating
    ensures var c := Step(env, s, Close).state;
      Step(env, c, TimerFire).out == [Update(s.changing)]
  {
  }

  /** A run without a timer firing delivers no `update` and keeps every dirty id. */
  lemma {:induction false} NoTimerNoDelivery(env: Env, s: State, es: seq<Event>)
    requires forall i :: 0 <= i < |es| ==> !es[i].TimerFire?
    ensures forall o :: o in Run(env, s, es).out ==> !o.Update?
    ensures s.changing <= Run(env, s, es).state.changing
    decreases |es|
  {
    if es != [] {
      var t1 := Step(env, s, es[0]);
      NoTimerNoDelivery(env, t1.state, es[1..]);
      DirtyOnlyShrinksAtDelivery(env, s, es[0]);
    }
  }

  /** No delivery while a build is in flight: from a state whose gate is
      closed, a run of events none of which ends the bundle delivers no
      `update`, keeps the gate closed and loses no dirty id. */
  lemma {:induction false} NoDeliveryDuringBuild(env: Env, s: State, es: seq<Event>)
    requires s.updating
    requires forall i :: 0 <= i < |es| ==> !es[i].BundleEnd?
    ensures forall o :: o in Run(env, s, es).out ==> !o.Update?
    ensures Run(env, s, es).state.updating
    ensures s.changing <= Run(env, s, es).state.changing
    decreases |es|
  {
    if es != [] {
      DirtyOnlyShrinksAtDelivery(env, s, es[0]);
      NoDeliveryDuringBuild(env, Step(env, s, es[0]).state, es[1..]);
    }
  }

  /** The `bundle` event gates delivery: from any state, once a bundle has
      started, nothing is delivered and no dirty id is lost until that
      bundle's end. */
  lemma BundleGatesDelivery(env: Env, s: State, es: seq<Event>)
    requires forall i :: 0 <= i < |es| ==> !es[i].BundleEnd?
    ensures forall o :: o in Run(env, s, [BundleStart] + es).out ==> !o.Update?
    ensures Run(env, s, [BundleStart] + es).state.updating
    ensures s.changing <= Run(env, s, [BundleStart] + es).state.changing
  {
    var s1 := Step(env, s, BundleStart).state;
    assert ([BundleStart] + es)[1..] == es;
    NoDeliveryDuringBuild(env, s1, es);
  }

  /** A discovered package's `package.json` is watched exactly as a
      discovered file with that path would be, and the package is recorded
      under that path in the package cache. */
  lemma PackageRecorded(env: Env, s: State, pkg: Package)
    ensures var file := env.packageFile(pkg.dirname);
      var t := Step(env, s, PackageDiscovered(pkg));
      var f := Step(env, s, FileDiscovered(file)).state;
      && t.out == []
      && (s.packageCache.Some? ==> t.state.packageCache == Some(s.packageCache.value[file := pkg]))
      && (s.packageCache.None? ==> t.state.packageCache.None?)
      && t.state.table == f.table
      && t.state.fwatchers == f.fwatchers && t.state.fwatcherFiles == f.fwatcherFiles
      && t.state.ignored == f.ignored
  {
  }

  /** Build deferral at the event level: while a bundle is in flight a timer
      firing delivers nothing and keeps the timer and the dirty set; after the
      bundle's end the next firing delivers every id that was dirty. */
  lemma BuildDefersDelivery(env: Env, s: State)
    requires s.updating && s.pending
    ensures var t1 := Step(env, s, TimerFire);
      && t1.out == [] && t1.state.changing == s.changing && t1.state.pending
      && var t2 := Step(env, t1.state, BundleEnd);
      && Step(env, t2.state, TimerFire).out == [Update(s.changing)]
  {
  }
}

=== FILE: options.dfy ===
/** Normalisation of the plugin's options into the quiet-period delay, the
    ignore patterns and the options handed to every new watcher. */
module Options {
  import opened Types

  /** An option value as the host may pass it. Numbers are modelled as
      integers. */
  datatype JsValue =
    | Undefined
    | JsBool(b: bool)
    | JsNumber(n: int)
    | JsString(str: string)
    | JsArray(items: seq<string>)

  /** The plugin's options: `delay`, `ignoreWatch` and `poll`. */
  datatype WatchifyOptions = WatchifyOptions(delay: JsValue, ignoreWatch: JsValue, poll: JsValue)

  /** The options given to the watch primitive for every watcher. */
  datatype WatchOptions = WatchOptions(persistent: bool, usePolling: Option<bool>, interval: Option<int>)

  /** The settings the engine runs with, fixed for its lifetime. */
  datatype Settings = Settings(delay: int, ignorePatterns: JsValue, wopts: WatchOptions)

  const DefaultDelay: int := 100
  const DefaultIgnore: string := "**/node_modules/**"

  /** JavaScript truthiness of an option value. */
  predicate Truthy(v: JsValue)
  {
    match v
    case Undefined => false
    case JsBool(b) => b
    case JsNumber(n) => n != 0
    case JsString(str) => str != ""
    case JsArray(_) => true
  }

  /** Derives the engine's settings from the plugin's options. `delay` is
      kept only when it is a number, else the default; a falsy `ignoreWatch`
      means the vendored-dependency pattern; a boolean `poll` sets polling to
      that value, a numeric one turns polling on with that interval, anything
      else leaves both unset; watchers are always persistent. */
  function Normalize(o: WatchifyOptions): (c: Settings)
    ensures c.delay == (if o.delay.JsNumber? then o.delay.n else DefaultDelay)
    ensures Truthy(o.ignoreWatch) ==> c.ignorePatterns == o.ignoreWatch
    ensures !Truthy(o.ignoreWatch) ==> c.ignorePatterns == JsString(DefaultIgnore)
    ensures Truthy(c.ignorePatterns)
    ensures c.wopts.persistent
    ensures o.poll.JsBool? ==> c.wopts.usePolling == Some(o.poll.b) && c.wopts.interval == None
    ensures o.poll.JsNumber? ==> c.wopts.usePolling == Some(true) && c.wopts.interval == Some(o.poll.n)
    ensures !o.poll.JsBool? && !o.poll.JsNumber? ==> c.wopts.usePolling == None && c.wopts.interval == None
  {
    var delay := if o.delay.JsNumber? then o.delay.n else DefaultDelay;
    var patterns := if Truthy(o.ignoreWatch) then o.ignoreWatch else JsString(DefaultIgnore);
    var wopts :=
      match o.poll
      case JsBool(b) => WatchOptions(true, Some(b), None)
      case JsNumber(n) => WatchOptions(true, Some(true), Some(n))
      case _ => WatchOptions(true, None, None);
    Settings(delay, patterns, wopts)
  }

  /** An interval is set only together with polling turned on, and only when
      `poll` was a number. */
  lemma IntervalImpliesPolling(o: WatchifyOptions)
    ensures Normalize(o).wopts.interval.Some? <==> o.poll.JsNumber?
    ensures Normalize(o).wopts.interval.Some? ==> Normalize(o).wopts.usePolling == Some(true)
  {
  }

  /** Normalising already-normalised options changes nothing: the derived
      settings are a fixed point. */
  lemma NormalizeStable(o: WatchifyOptions)
    ensures var c := Normalize(o);
      var o' := WatchifyOptions(JsNumber(c.delay), c.ignorePatterns,
        if c.wopts.interval.Some? then JsNumber(c.wopts.interval.value)
        else if c.wopts.usePolling.Some? then JsBool(c.wopts.usePolling.value) else Undefined);
      Normalize(o') == c
  {
  }
}

=== FILE: registry.dfy ===
/** The ignore memo and the watch registry: which logical files are backed by
    which low-level watchers, how `watchFile` arms a new one and how `close`
    shuts them all. */
module Registry {
  import opened Types

  /** `dep || file`: a missing or empty dependency path means the file itself. */
  function DefaultDep(file: Path, dep: Option<Path>): Path
  {
    if dep.None? || dep.value == "" then file else dep.value
  }

  /** Every id in `ws` names a watcher of `tbl`. */
  predicate Indexes(tbl: seq<Watcher>, ws: seq<nat>)
  {
    forall i :: 0 <= i < |ws| ==> ws[i] < |tbl|
  }

  /** Every watcher in `ws` reports its changes to logical file `f`. */
  predicate Owned(tbl: seq<Watcher>, ws: seq<nat>, f: Path)
    requires Indexes(tbl, ws)
  {
    forall i :: 0 <= i < |ws| ==> tbl[ws[i]].owner == f
  }

  /** The physical paths observed by the watchers `ws`. */
  function Targets(tbl: seq<Watcher>, ws: seq<nat>): (ts: set<Path>)
    requires Indexes(tbl, ws)
    ensures |ts| <= |ws|
    ensures forall i :: 0 <= i < |ws| ==> tbl[ws[i]].target in ts
    decreases |ws|
  {
    if ws == [] then {} else Targets(tbl, ws[..|ws| - 1]) + {tbl[ws[|ws| - 1]].target}
  }

  /** The watchers of logical file `f` are exactly one per path in
      `fwatcherFiles[f]`, and all of them report to `f`. */
  predicate Backs(s: State, f: Path)
    requires f in s.fwatchers && f in s.fwatcherFiles
  {
    var ws := s.fwatchers[f];
    && Indexes(s.table, ws)
    && Owned(s.table, ws, f)
    && |ws| == |s.fwatcherFiles[f]|
    && Targets(s.table, ws) == s.fwatcherFiles[f]
  }

  /** The two registry maps describe the same logical files, consistently. */
  predicate WellFormed(s: State)
  {
    && s.fwatchers.Keys == s.fwatcherFiles.Keys
    && (forall f :: f in s.fwatchers ==> Backs(s, f))
  }

  /** A watcher that is still open is registered under the file it reports to. */
  predicate OpenRegistered(s: State)
  {
    forall w :: 0 <= w < |s.table| && s.table[w].open ==>
      s.table[w].owner in s.fwatchers && w in s.fwatchers[s.table[w].owner]
  }

  /** Every memoised decision is the matcher's answer for that path. */
  predicate MemoSound(env: Env, s: State)
  {
    forall f :: f in s.ignored ==> s.ignored[f] == env.ignore(f)
  }

  /** The matcher was asked exactly about the memoised paths, each once. */
  predicate MemoLogged(s: State)
  {
    && (forall i :: 0 <= i < |s.matcherCalls| ==> s.matcherCalls[i] in s.ignored)
    && (forall f :: f in s.ignored ==> f in s.matcherCalls)
    && (forall i, j :: 0 <= i < j < |s.matcherCalls| ==> s.matcherCalls[i] != s.matcherCalls[j])
  }

  /** `r`'s memo extends `s`'s: every decision survives with its value, the
      record of matcher questions only grows, and each question added is about
      a path `s`'s memo did not hold. */
  predicate MemoExtends(s: State, r: State)
  {
    && (forall f :: f in s.ignored ==> f in r.ignored && r.ignored[f] == s.ignored[f])
    && |s.matcherCalls| <= |r.matcherCalls|
    && r.matcherCalls[..|s.matcherCalls|] == s.matcherCalls
    && (forall i :: |s.matcherCalls| <= i < |r.matcherCalls| ==> r.matcherCalls[i] !in s.ignored)
  }

  /** No watcher was ever created for a logical file the memo ignores. */
  predicate IgnoredUnwatched(s: State)
  {
    && (forall f :: f in s.fwatchers ==> f in s.ignored && !s.ignored[f])
    && (forall w :: 0 <= w < |s.table| ==> s.table[w].owner in s.ignored && !s.ignored[s.table[w].owner])
  }

  /** The registry's part of the engine invariant. */
  predicate RegistryInv(env: Env, s: State)
  {
    && MemoSound(env, s)
    && MemoLogged(s)
    && WellFormed(s)
    && OpenRegistered(s)
    && IgnoredUnwatched(s)
  }

  /** Is `f` a logical file whose (file, dep) pair already has a watcher? */
  predicate HasPair(s: State, f: Path, dep: Path)
  {
    f in s.fwatcherFiles && dep in s.fwatcherFiles[f]
  }

  /** The memo step of `watchFile`: the matcher is asked about `file` only
      when the memo has no decision for it yet. */
  function Memoise(env: Env, s: State, file: Path): (r: State)
    ensures file in r.ignored && r.ignored[file] == (if file in s.ignored then s.ignored[file] else env.ignore(file))
    ensures file in s.ignored ==> r == s
    ensures file !in s.ignored ==> r.ignored == s.ignored[file := env.ignore(file)] && r.matcherCalls == s.matcherCalls + [file]
    ensures r == s.(ignored := r.ignored, matcherCalls := r.matcherCalls)
  {
    if file in s.ignored then s
    else s.(ignored := s.ignored[file := env.ignore(file)], matcherCalls := s.matcherCalls + [file])
  }

  /** Gives `file` an (empty) entry in both registry maps when it has none. */
  function Enter(s: State, file: Path): (r: State)
    ensures file in r.fwatchers && file in r.fwatcherFiles
    ensures file in s.fwatchers ==> r.fwatchers == s.fwatchers
    ensures file !in s.fwatchers ==> r.fwatchers == s.fwatchers[file := []]
    ensures file in s.fwatcherFiles ==> r.fwatcherFiles == s.fwatcherFiles
    ensures file !in s.fwatcherFiles ==> r.fwatcherFiles == s.fwatcherFiles[file := {}]
    ensures r == s.(fwatchers := r.fwatchers, fwatcherFiles := r.fwatcherFiles)
  {
    s.(fwatchers := if file in s.fwatchers then s.fwatchers else s.fwatchers[file := []],
       fwatcherFiles := if file in s.fwatcherFiles then s.fwatcherFiles else s.fwatcherFiles[file := {}])
  }

  /** Creates one open watcher on `dep` reporting to `file`, with the next
      free id, and records it under `file`. */
  function AddWatcher(s: State, file: Path, dep: Path): (r: State)
    requires file in s.fwatchers && file in s.fwatcherFiles
    ensures r.table == s.table + [Watcher(file, dep, true)]
    ensures r.fwatchers == s.fwatchers[file := s.fwatchers[file] + [|s.table|]]
    ensures r.fwatcherFiles == s.fwatcherFiles[file := s.fwatcherFiles[file] + {dep}]
    ensures r == s.(table := r.table, fwatchers := r.fwatchers, fwatcherFiles := r.fwatcherFiles)
  {
    var id := |s.table|;
    s.(table := s.table + [Watcher(file, dep, true)],
       fwatchers := s.fwatchers[file := s.fwatchers[file] + [id]],
       fwatcherFiles := s.fwatcherFiles[file := s.fwatcherFiles[file] + {dep}])
  }

  /** The `watchFile(file, dep)` handler. The ignore decision is taken on the
      logical `file`, computed at most once and memoised; an ignored file gets
      no watcher; a (file, dep) pair already watched gets no second watcher;
      otherwise one fresh open watcher on `dep`, reporting to `file`, is
      appended under `file`. */
  function WatchFile(env: Env, s: State, file: Path, dep: Option<Path>): (r: State)
    // the memo: asked once per distinct file, never recomputed
    ensures file in r.ignored && r.ignored[file] == (if file in s.ignored then s.ignored[file] else env.ignore(file))
    ensures file in s.ignored ==> r.ignored == s.ignored && r.matcherCalls == s.matcherCalls
    ensures file !in s.ignored ==> r.ignored == s.ignored[file := env.ignore(file)] && r.matcherCalls == s.matcherCalls + [file]
    // an ignored file leaves the registry alone
    ensures r.ignored[file] ==> r.fwatchers == s.fwatchers && r.fwatcherFiles == s.fwatcherFiles && r.table == s.table
    // a repeated pair creates no watcher
    ensures HasPair(s, file, DefaultDep(file, dep)) ==> r.table == s.table && r.fwatcherFiles == s.fwatcherFiles
    // a watched file ends up with the pair registered
    ensures !r.ignored[file] ==> file in r.fwatchers && HasPair(r, file, DefaultDep(file, dep))
    // at most one watcher is created, on `dep`, reporting to `file`
    ensures |r.table| == |s.table| + (if r.ignored[file] || HasPair(s, file, DefaultDep(file, dep)) then 0 else 1)
    ensures r.table[..|s.table|] == s.table
    ensures |r.table| > |s.table| ==> r.table[|s.table|] == Watcher(file, DefaultDep(file, dep), true)
    // other logical files are untouched
    ensures forall f :: f != file ==> (f in r.fwatchers <==> f in s.fwatchers) && (f in r.fwatcherFiles <==> f in s.fwatcherFiles)
    ensures forall f :: f != file && f in s.fwatchers ==> r.fwatchers[f] == s.fwatchers[f]
    ensures forall f :: f != file && f in s.fwatcherFiles ==> r.fwatcherFiles[f] == s.fwatcherFiles[f]
    // nothing outside the memo and the registry changes
    ensures r.changing == s.changing && r.pending == s.pending && r.updating == s.updating
    ensures r.cache == s.cache && r.packageCache == s.packageCache
    // `file`'s own entries keep what they had and gain exactly the new watcher and path
    ensures !r.ignored[file] ==>
      r.fwatchers[file] == (if file in s.fwatchers then s.fwatchers[file] else [])
                           + (if HasPair(s, file, DefaultDep(file, dep)) then [] else [|s.table|])
    ensures !r.ignored[file] ==>
      r.fwatcherFiles[file] == (if file in s.fwatcherFiles then s.fwatcherFiles[file] else {}) + {DefaultDep(file, dep)}
  {
    var d := DefaultDep(file, dep);
    var s1 := Memoise(env, s, file);
    if s1.ignored[file] then s1
    else
      var s2 := Enter(s1, file);
      if d in s2.fwatcherFiles[file] then s2
      else AddWatcher(s2, file, d)
  }

  /** Closes the watchers whose ids are in `ids`; nothing else about any watcher changes. */
  function CloseWatchers(tbl: seq<Watcher>, ids: set<nat>): (r: seq<Watcher>)
    ensures |r| == |tbl|
    ensures forall i :: 0 <= i < |tbl| ==> r[i].owner == tbl[i].owner && r[i].target == tbl[i].target
    ensures forall i :: 0 <= i < |tbl| ==> (r[i].open <==> tbl[i].open && i !in ids)
  {
    seq(|tbl|, i requires 0 <= i < |tbl| => if i in ids then tbl[i].(open := false) else tbl[i])
  }

  /** The ids of every watcher currently listed in the registry. */
  function RegisteredIds(fw: map<Path, seq<nat>>): (ids: set<nat>)
    ensures forall f, w :: f in fw && w in fw[f] ==> w in ids
    ensures forall w :: w in ids ==> exists f :: f in fw && w in fw[f]
  {
    set f, w | f in fw && w in fw[f] :: w
  }

  /** The `close` handler: closes every watcher listed in the registry and
      leaves the registry maps, the memo, the dirty set, the caches and the
      timer as they were. */
  function Close(s: State): (r: State)
    ensures r == s.(table := r.table)
    ensures |r.table| == |s.table|
    ensures forall w :: 0 <= w < |s.table| ==> r.table[w].owner == s.table[w].owner && r.table[w].target == s.table[w].target
    ensures forall f, w :: f in s.fwatchers && w in s.fwatchers[f] && w < |s.table| ==> !r.table[w].open
    ensures forall w :: 0 <= w < |s.table| && r.table[w].open ==> s.table[w].open
    ensures forall w :: 0 <= w < |s.table| && (forall f :: f in s.fwatchers ==> w !in s.fwatchers[f]) ==> r.table[w] == s.table[w]
  {
    s.(table := CloseWatchers(s.table, RegisteredIds(s.fwatchers)))
  }

  /** Changing only the open flags of watchers (or appending new ones) does
      not change which paths a list of existing watchers observes. */
  lemma {:induction false} TargetsFrame(tbl: seq<Watcher>, tbl': seq<Watcher>, ws: seq<nat>)
    requires Indexes(tbl, ws)
    requires |tbl| <= |tbl'|
    requires forall i :: 0 <= i < |tbl| ==> tbl'[i].target == tbl[i].target
    ensures Indexes(tbl', ws)
    ensures Targets(tbl', ws) == Targets(tbl, ws)
    decreases |ws|
  {
    if ws != [] {
      TargetsFrame(tbl, tbl', ws[..|ws| - 1]);
    }
  }

  /** Appending one watcher id to a list adds exactly that watcher's path. */
  lemma TargetsAppend(tbl: seq<Watcher>, ws: seq<nat>, id: nat)
    requires Indexes(tbl, ws) && id < |tbl|
    ensures Indexes(tbl, ws + [id])
    ensures Targets(tbl, ws + [id]) == Targets(tbl, ws) + {tbl[id].target}
  {
    assert (ws + [id])[..|ws|] == ws;
  }

  /** A list of watchers observing as many distinct paths as it has entries
      never holds two watchers on the same path. */
  lemma {:induction false} TargetsDistinct(tbl: seq<Watcher>, ws: seq<nat>)
    requires Indexes(tbl, ws)
    requires |Targets(tbl, ws)| == |ws|
    ensures forall i, j :: 0 <= i < j < |ws| ==> tbl[ws[i]].target != tbl[ws[j]].target
    decreases |ws|
  {
    if ws != [] {
      var p := ws[..|ws| - 1];
      var t := tbl[ws[|ws| - 1]].target;
      assert Targets(tbl, ws) == Targets(tbl, p) + {t};
      assert t !in Targets(tbl, p) && |Targets(tbl, p)| == |p|;
      TargetsDistinct(tbl, p);
      forall i, j | 0 <= i < j < |ws|
        ensures tbl[ws[i]].target != tbl[ws[j]].target
      {
        if j < |ws| - 1 {
          assert ws[i] == p[i] && ws[j] == p[j];
        } else {
          assert ws[i] == p[i];
          assert tbl[p[i]].target in Targets(tbl, p);
        }
      }
    }
  }

  /** No duplicate watch target: under the registry invariant the watchers of
      one logical file observe pairwise distinct paths, so they are distinct
      watchers too. */
  lemma NoDuplicateTargets(env: Env, s: State, f: Path)
    requires RegistryInv(env, s)
    requires f in s.fwatchers
    ensures Indexes(s.table, s.fwatchers[f])
    ensures forall i, j :: 0 <= i < j < |s.fwatchers[f]| ==>
      s.table[s.fwatchers[f][i]].target != s.table[s.fwatchers[f][j]].target && s.fwatchers[f][i] != s.fwatchers[f][j]
  {
    assert Backs(s, f);
    TargetsDistinct(s.table, s.fwatchers[f]);
  }

  /** The memo step keeps the registry invariant. */
  lemma MemoisePreservesInv(env: Env, s: State, file: Path)
    requires RegistryInv(env, s)
    ensures RegistryInv(env, Memoise(env, s, file))
  {
    var r := Memoise(env, s, file);
    if file !in s.ignored {
      assert MemoLogged(r) by {
        forall i | 0 <= i < |r.matcherCalls| ensures r.matcherCalls[i] in r.ignored {
          if i < |s.matcherCalls| { assert r.matcherCalls[i] == s.matcherCalls[i]; }
        }
        forall f | f in r.ignored ensures f in r.matcherCalls {
          if f != file { assert f in s.matcherCalls; }
          else { assert r.matcherCalls[|s.matcherCalls|] == file; }
        }
      }
      assert WellFormed(r) by {
        forall f | f in r.fwatchers ensures Backs(r, f) { assert Backs(s, f); }
      }
    }
  }

  /** Entering a file the memo accepts keeps the registry invariant. */
  lemma EnterPreservesInv(env: Env, s: State, file: Path)
    requires RegistryInv(env, s)
    requires file in s.ignored && !s.ignored[file]
    ensures RegistryInv(env, Enter(s, file))
  {
    var r := Enter(s, file);
    assert r.ignored == s.ignored && r.matcherCalls == s.matcherCalls && r.table == s.table;
    assert OpenRegistered(r) by {
      forall w | 0 <= w < |r.table| && r.table[w].open
        ensures r.table[w].owner in r.fwatchers && w in r.fwatchers[r.table[w].owner]
      {
        assert s.table[w].owner in s.fwatchers;
      }
    }
    assert WellFormed(r) by {
      forall f | f in r.fwatchers ensures Backs(r, f) {
        if f == file && f !in s.fwatchers {
          assert r.fwatchers[f] == [] && r.fwatcherFiles[f] == {};
        } else {
          assert Backs(s, f);
        }
      }
    }
  }

  /** After arming a watcher for `file`, every logical file is still backed
      consistently: `file` by its old watchers plus the new one, the others
      as before. */
  lemma AddWatcherBacks(s: State, file: Path, dep: Path, f: Path)
    requires file in s.fwatchers && file in s.fwatcherFiles && dep !in s.fwatcherFiles[file]
    requires f in s.fwatchers && f in s.fwatcherFiles && Backs(s, f)
    ensures Backs(AddWatcher(s, file, dep), f)
  {
    var r := AddWatcher(s, file, dep);
    var id := |s.table|;
    var ws := s.fwatchers[f];
    TargetsFrame(s.table, r.table, ws);
    if f == file {
      TargetsAppend(r.table, ws, id);
      assert r.fwatchers[f] == ws + [id];
      assert r.fwatcherFiles[f] == s.fwatcherFiles[f] + {dep};
      assert Owned(r.table, ws + [id], file) by {
        forall i | 0 <= i < |ws| + 1 ensures r.table[(ws + [id])[i]].owner == file {
          if i < |ws| { assert (ws + [id])[i] == ws[i]; }
        }
      }
    } else {
      assert r.fwatchers[f] == ws;
      assert Owned(r.table, ws, f) by {
        forall i | 0 <= i < |ws| ensures r.table[ws[i]].owner == f {
          assert r.table[ws[i]] == s.table[ws[i]];
        }
      }
    }
  }

  /** Arming a watcher for a new (file, dep) pair keeps the registry maps consistent. */
  lemma AddWatcherWellFormed(s: State, file: Path, dep: Path)
    requires WellFormed(s)
    requires file in s.fwatchers && dep !in s.fwatcherFiles[file]
    ensures WellFormed(AddWatcher(s, file, dep))
  {
    var r := AddWatcher(s, file, dep);
    forall f | f in r.fwatchers ensures Backs(r, f) {
      AddWatcherBacks(s, file, dep, f);
    }
  }

  /** The new watcher is registered, and every open one stays registered. */
  lemma AddWatcherOpenRegistered(s: State, file: Path, dep: Path)
    requires OpenRegistered(s)
    requires file in s.fwatchers && file in s.fwatcherFiles
    ensures OpenRegistered(AddWatcher(s, file, dep))
  {
    var r := AddWatcher(s, file, dep);
    var id := |s.table|;
    var ws := s.fwatchers[file];
    forall w | 0 <= w < |r.table| && r.table[w].open
      ensures r.table[w].owner in r.fwatchers && w in r.fwatchers[r.table[w].owner]
    {
      if w == id {
        assert r.fwatchers[file][|ws|] == id;
      } else {
        var o := s.table[w].owner;
        assert r.table[w] == s.table[w];
        assert w in s.fwatchers[o];
        if o == file {
          assert r.fwatchers[file][..|ws|] == ws;
        }
      }
    }
  }

  /** Arming a watcher for a new (file, dep) pair of an accepted file keeps
      the registry invariant. */
  lemma AddWatcherPreservesInv(env: Env, s: State, file: Path, dep: Path)
    requires RegistryInv(env, s)
    requires file in s.fwatchers && file in s.fwatcherFiles
    requires file in s.ignored && !s.ignored[file]
    requires dep !in s.fwatcherFiles[file]
    ensures RegistryInv(env, AddWatcher(s, file, dep))
  {
    var r := AddWatcher(s, file, dep);
    AddWatcherWellFormed(s, file, dep);
    AddWatcherOpenRegistered(s, file, dep);
    assert IgnoredUnwatched(r) by {
      forall w | 0 <= w < |r.table|
        ensures r.table[w].owner in r.ignored && !r.ignored[r.table[w].owner]
      {
        if w < |s.table| { assert r.table[w] == s.table[w]; }
      }
    }
  }

  /** `watchFile` only extends the memo. */
  lemma WatchFileExtendsMemo(env: Env, s: State, file: Path, dep: Option<Path>)
    ensures MemoExtends(s, WatchFile(env, s, file, dep))
  {
    var r := WatchFile(env, s, file, dep);
    if file !in s.ignored {
      assert r.matcherCalls[..|s.matcherCalls|] == s.matcherCalls;
    }
  }

  /** `watchFile` keeps the registry invariant. */
  lemma WatchFilePreservesInv(env: Env, s: State, file: Path, dep: Option<Path>)
    requires RegistryInv(env, s)
    ensures RegistryInv(env, WatchFile(env, s, file, dep))
  {
    var d := DefaultDep(file, dep);
    var s1 := Memoise(env, s, file);
    MemoisePreservesInv(env, s, file);
    if !s1.ignored[file] {
      var s2 := Enter(s1, file);
      EnterPreservesInv(env, s1, file);
      if d !in s2.fwatcherFiles[file] {
        AddWatcherPreservesInv(env, s2, file, d);
      }
    }
  }

  /** Calling `watchFile` twice with the same arguments is the same as
      calling it once. */
  lemma WatchFileIdempotent(env: Env, s: State, file: Path, dep: Option<Path>)
    ensures WatchFile(env, WatchFile(env, s, file, dep), file, dep) == WatchFile(env, s, file, dep)
  {
  }

  /** `dep || file`: reporting the empty path as a dependency is the same as
      reporting no dependency, so the file itself is watched. */
  lemma EmptyDepMeansFile(env: Env, s: State, file: Path)
    ensures WatchFile(env, s, file, Some("")) == WatchFile(env, s, file, None)
    ensures var r := WatchFile(env, s, file, None);
      !r.ignored[file] ==> HasPair(r, file, file)
  {
  }

  /** The ignore decision looks at the logical file only: a transform
      dependency of a watched file is watched even when the matcher would
      reject the dependency's own path. */
  lemma IgnoreKeyedOnFile(env: Env, s: State, file: Path, dep: Path)
    requires file !in s.ignored && !env.ignore(file) && env.ignore(dep)
    requires dep != "" && !HasPair(s, file, dep)
    ensures var r := WatchFile(env, s, file, Some(dep));
      |r.table| == |s.table| + 1 && r.table[|s.table|] == Watcher(file, dep, true)
      && r.ignored.Keys == s.ignored.Keys + {file} && r.matcherCalls == s.matcherCalls + [file]
  {
  }

  /** After `close`, under the registry invariant, no watcher is open. */
  lemma CloseShutsEveryWatcher(env: Env, s: State)
    requires RegistryInv(env, s)
    ensures forall w :: 0 <= w < |Close(s).table| ==> !Close(s).table[w].open
  {
    var r := Close(s);
    forall w | 0 <= w < |r.table| ensures !r.table[w].open {
      if s.table[w].open {
        var o := s.table[w].owner;
        assert o in s.fwatchers && w in s.fwatchers[o];
      }
    }
  }

  /** Closing twice is closing once. */
  lemma CloseIdempotent(s: State)
    ensures Close(Close(s)) == Close(s)
  {
  }

  /** `close` keeps the registry invariant. */
  lemma ClosePreservesInv(env: Env, s: State)
    requires RegistryInv(env, s)
    ensures RegistryInv(env, Close(s))
  {
    var r := Close(s);
    CloseShutsEveryWatcher(env, s);
    assert WellFormed(r) by {
      forall f | f in r.fwatchers ensures Backs(r, f) {
        assert Backs(s, f);
        TargetsFrame(s.table, r.table, s.fwatchers[f]);
      }
    }
  }
}

=== FILE: types.dfy ===
/** Vocabulary shared by every part of the watch/invalidate/debounce engine:
    paths, watcher handles, cache rows, the engine state and the events'
    observable outputs. */
module Types {

  /** A file identifier: the path under which a file is cached, watched and
      reported dirty. */
  type Path = string

  datatype Option<+T> = None | Some(value: T)

  /** A low-level watcher handle. Its id is its index in `State.table`.
      `owner` is the logical file a change on it invalidates, `target` the
      physical path it observes; `open` turns false once it is closed. */
  datatype Watcher = Watcher(owner: Path, target: Path, open: bool)

  /** One entry of the builder's file cache: source text and dependency map. */
  datatype CacheEntry = CacheEntry(source: string, deps: map<string, string>)

  /** A package record as the builder reports it; only its directory matters here. */
  datatype Package = Package(dirname: Path, fields: map<string, string>)

  /** A row of the builder's dependency walk. `expose` says the file was
      published under an expose id, `id`, which the builder's expose table
      maps to the file's path. Ids are property names, so they are strings. */
  datatype Row = Row(id: string, file: Path, source: string, deps: map<string, string>, expose: bool)

  /** Everything the engine remembers between events.
      - `ignored`: the memo of ignore decisions, keyed by logical file;
      - `matcherCalls`: every path the ignore matcher was asked about, in order;
      - `fwatchers`: logical file to the ids of the watchers backing it;
      - `fwatcherFiles`: logical file to the physical paths already watched for it;
      - `table`: every watcher ever created, indexed by id;
      - `changing`: the dirty set awaiting delivery;
      - `cache`, `packageCache`: the builder's caches, absent when not configured;
      - `pending`: a debounce timer is armed;
      - `updating`: a bundle is in flight. */
  datatype State = State(
    ignored: map<Path, bool>,
    matcherCalls: seq<Path>,
    fwatchers: map<Path, seq<nat>>,
    fwatcherFiles: map<Path, set<Path>>,
    table: seq<Watcher>,
    changing: set<Path>,
    cache: Option<map<Path, CacheEntry>>,
    packageCache: Option<map<Path, Package>>,
    pending: bool,
    updating: bool)

  /** What an event makes observable to the host. */
  datatype Output =
    | Update(ids: set<Path>)   // the `update` event with a snapshot of the dirty set
    | Error(err: string)       // a watcher error forwarded verbatim
    | Pass(row: Row)           // a dependency row passed on down the pipeline

  /** The state after one event and what the event emitted. */
  datatype Transition = Transition(state: State, out: seq<Output>)

  /** The host's pure collaborators: the ignore matcher, and the function
      naming a package's `package.json` from its directory. */
  datatype Env = Env(ignore: Path -> bool, packageFile: Path -> Path)

  /** The engine right after it is attached to a builder. */
  function Init(cache: Option<map<Path, CacheEntry>>, packageCache: Option<map<Path, Package>>): State
  {
    State(map[], [], map[], map[], [], {}, cache, packageCache, false, false)
  }
}
